=== FILE: README.md ===
# Voter model by backward tracing — a Dafny model

This project models the core of a small Rust program that draws a
space-time picture of the one-dimensional voter model using its dual, coalescing
random walks driven by Poisson-timed swap events. It covers:

- `DeVec<T>` (`src/devec.rs`), a container addressed by signed positions and
  stored as a non-negative vector and a negative vector (module `DeVecs`);
- the swap events and the scan that `backtrace_until` runs over one position's
  timeline, with the measure that makes the backward trace terminate (module `Swaps`);
- `ColourState::backtrace_until` (module `Reconstruct`): the colour at a
  position at the end of one time slice, found by following swaps backward;
- `ColourState::build_initial_state` (module `Build`): the column-by-column,
  append-only fill of the colour grid;
- the generation phase of `main` (module `Generation`): how positions are split
  among threads, the per-position timeline loop with the random draws given as
  input, and the in-order joining of the threads' outputs with `add_data`;
- `from_u8_rgb` (module `Rgb`), and how `main` wires the pieces (module `Pipeline`).

The container is a pair of immutable sequences. `at_position_mut` returns a
`Slot` naming the backing vector and index, and `Write` is a store through it.
`backtrace_until` is the function `Walk`, which finds where the backward walk
stops, followed by a read of the previous column. `Walk` terminates because the
number of swaps, over all positions, with a timestamp below the current time
goes down at every crossing. The method `BacktraceUntil` is the source's loop,
and it is proved equal to the function. `build_initial_state` is the method
`BuildInitialState`, which pushes in place. When every seed column is non-empty
(true in `main`, where each has exactly one entry), it is proved equal to
`Rounds`, which computes each column from a snapshot of the state before that
column.

Times are exact reals. The window `(min_time, current_time)` of a trace is a
parameter. The build derives it from the slice number as
`t * maxTime / width`. `WIDTH`, `HEIGHT`, `NTHREADS` and `MAXTIME` are
parameters. Colours are `bv32` values, and an unknown colour is `None`.

Two behaviours of `src/main.rs` are worth stating plainly:
- A position whose timeline is empty settles there and copies the previous
  column's colour, which may itself be `None`. Reaching a position outside
  the swap container's range gives `None` directly.
- The generation loop runs while the clock is strictly below the horizon, so
  it keeps the swap that first reaches or passes the horizon. That swap lies
  at or after the end of the last slice, so no trace ever follows it.

## Model

| member | source | states |
|---|---|---|
| DeVecs.New | src/devec.rs:8-13 | the new container's range is `0..0` and no position holds a value |
| DeVecs.NewWithData | src/devec.rs:15-21 | range `0..|data|`, position `i` holds `data[i]`, and the offset-bias view is `data` itself |
| DeVecs.DeVec.AtPosition | src/devec.rs:22-27 | a value is returned exactly when the position lies in `data_range()` |
| DeVecs.AtPositionFlat | src/devec.rs:23-26 | signed addressing agrees with one sequence holding position `p` at index `p + |negative|`, so `-k` reads `negative[k-1]` and `p >= 0` reads `positive[p]` |
| DeVecs.DeVec.DataRange | src/devec.rs:44-46 | 0 lies between the bounds (`start <= 0 <= end`) and the width is the number of stored elements |
| DeVecs.DeVec.AtPositionMut | src/devec.rs:29-33 | a slot is returned under exactly the condition of `at_position`, and it holds the value `at_position` returns |
| DeVecs.DeVec.Write | src/main.rs:78 | a store through a slot keeps the range, makes that slot hold the new value, and leaves every other slot unchanged |
| DeVecs.WriteThroughMut | src/devec.rs:29-33 | a write through the slot of position `p` changes `p` only and keeps the range |
| DeVecs.DeVec.AddData | src/devec.rs:34-42 | appending `k` items raises the upper bound by `k` (or lowers the lower bound by `k` on the negative side), keeps every previously valid position's value, places `data[i]` at the next positions outward, and empties the argument |
| DeVecs.Extensionality | src/devec.rs:1-5 | two containers that agree on range and on every position are the same container |
| DeVecs.AddBothSides | src/devec.rs:35-46 | adding `k` items on the negative side and `m` on the positive side to an empty container gives range `-k..m` |
| DeVecs.Reverse | src/devec.rs:24 | the negative side read outward-in: the reversal has the same length and mirrors indices |
| Swaps.Step | src/main.rs:49 | the move is -1 exactly for `Left` and +1 for `Right` |
| Swaps.LastCrossing | src/main.rs:45-54 | the found swap is the last one in list order whose timestamp is strictly inside the window, and `None` means no swap is inside it |
| Swaps.ScanReverse | src/main.rs:45-54 | the reverse loop returns the same swap index as `LastCrossing` |
| Swaps.LastCrossingUnique | src/main.rs:45-53 | an in-window swap with no in-window swap after it is the one the scan returns |
| Swaps.CrossingDecreases | src/main.rs:47-52 | following any swap below the current time strictly lowers the number of swaps, over all positions, below the current time |
| Reconstruct.Walk | src/main.rs:39-67 | the loop exits by its condition exactly when it starts with `current_time <= min_time`; otherwise it stops at a position with no data or at a position with no swap inside `(min_time, time)`, with `min_time < time <= current_time`, and its distance from the start is at most the number of swaps, over all positions, with timestamp in `[time, current_time)` |
| Reconstruct.Backtrace | src/main.rs:33-69 | unknown when the window is empty or the start has no swap data; when no swap at the start is inside the window, the result is entry `t-1` of that position's column, or unknown if the column is shorter |
| Reconstruct.BacktraceCrossing | src/main.rs:45-52 | when a swap at the start is inside the window, the result is the trace restarted at that swap's timestamp (strictly inside the window) from the neighbour in its direction |
| Reconstruct.BacktraceOrigin | src/main.rs:56-62 | a known colour is entry `t-1` of some position's column, no further from the start than the number of swaps below `current_time` |
| Reconstruct.ColourBeforeStable | src/main.rs:59-62 | entry `t-1` of a column that already holds it is not changed by appending; for a column one entry short, the first appended entry is what is read |
| Reconstruct.BacktraceFrame | src/main.rs:59-62 | the result depends on the colour state only through its range and entry `t-1` of each column |
| Reconstruct.SwapsWithinSafe | src/main.rs:59 | when every position with swap data has a colour column, the `unwrap` on the settled position cannot fail |
| Reconstruct.BacktraceUntil | src/main.rs:33-69 | the loop with the inner reverse scan and restart returns the same colour as `Backtrace` |
| BacktraceScenarios.ScenarioOffGrid | src/main.rs:71-81 | with horizon 2.0 and width 2, column 1 of seeds white, black is unknown, black: position 0's `Left` swap at 0.6 leads off the data, position 1 with no swaps keeps black |
| Build.SliceTime | src/main.rs:35-36 | slice 0 starts at 0, slice `WIDTH` ends at the horizon, and every slice bound up to `WIDTH` lies in `[0, MAXTIME]` |
| Build.SliceOrdered | src/main.rs:35-36 | for a positive horizon, slice `t-1` ends strictly before slice `t` |
| Build.Round | src/main.rs:76-79 | a column pass from a snapshot keeps the range and appends to each column exactly its trace result |
| Build.Rounds | src/main.rs:74-80 | after the columns before `n`, each column has grown by `n-1` entries and still starts with its seed |
| Build.FillColumn | src/main.rs:76-79 | the in-place pass over `data_range()` grows each column by one, never rewrites an entry, and equals the snapshot pass when every column already holds entry `t-1` |
| Build.BuildInitialState | src/main.rs:71-81 | the range is kept, each column gains exactly `WIDTH-1` entries appended after its seed, and with non-empty seeds the result is the snapshot definition |
| Build.QuietKeepsSeed | src/main.rs:71-81 | with no swaps anywhere and one-entry seeds, every column repeats its seed colour in every time column |
| Generation.PartitionSize | src/main.rs:118-119 | every thread's share is roughly equal: `NTHREADS` copies of it are within `NTHREADS` of `HEIGHT` |
| Generation.TotalSizeClosedForm | src/main.rs:117-119 | the first `k` threads generate `k*(HEIGHT/NTHREADS) + min(k, HEIGHT%NTHREADS)` positions |
| Generation.PartitionExact | src/main.rs:117-119 | all threads together generate exactly `HEIGHT` positions |
| Generation.PartitionBalanced | src/main.rs:117-119 | any two threads' shares differ by at most one, and a lower-numbered thread never gets fewer |
| Generation.PrefixSumIncreasing | src/main.rs:130-133 | with positive draws, the accumulated clock is non-negative and strictly increasing |
| Generation.TimelineIncreasing | src/main.rs:128-136 | timestamps of the reference timeline are positive and strictly increasing |
| Generation.GenerateTimeline | src/main.rs:128-136 | the loop yields the reference timeline; every swap but the last is below the horizon and the last is at or past it, so the overshoot swap is kept; it runs out of draws exactly when all draws sum below the horizon |
| Generation.Assemble | src/main.rs:143-146 | joining outputs in thread order gives range `0..total` with the concatenated outputs in order |
| Generation.AssembleLayout | src/main.rs:117-146 | thread `w`'s `i`-th position lands at the sum of the earlier shares plus `i` |
| Generation.AssembleRange | src/main.rs:117-146 | when every thread produced its share, the joined swap container covers exactly `0..HEIGHT` |
| Pipeline.MainSetup | src/main.rs:143-160 | the joined swaps and the seeded colours have the same range `0..HEIGHT`, so the build's `unwrap` calls are safe, and each seed column holds one entry |
| Rgb.FromU8Rgb | src/main.rs:84-88 | the packed value is below `2^24` |
| Rgb.UnpackPack | src/main.rs:85-88 | `v >> 16`, `(v >> 8) & 0xFF` and `v & 0xFF` recover `r`, `g` and `b` |
| Rgb.PackUnpack | src/main.rs:85-88 | every value below `2^24` is the packing of its three channels |

## Left out

- The window, frame buffer fill and refresh/escape loop (`src/main.rs:97-111`, `162-172`): display I/O.
- Thread spawning and joining (`src/main.rs:115-146`): concurrency. Only the per-thread share arithmetic, the per-position `while time < MAXTIME` loop (`GenerateTimeline`, `src/main.rs:130-136`) and the in-order joining of the outputs with `add_data` are modelled.
- The random sources (`thread_rng`, `Exp::new(2.0 * RATEPARAMETER)`, `Exp::sample`, `gen_range`) at `src/main.rs:125-134` and `148-154`: these are foreign calls. The interarrival times and directions are a given sequence of `Draw`s, and the seed colours are a given sequence. The exponential rate is therefore not modelled.
- `f32` arithmetic and rounding (`src/main.rs:35-36` and all timestamps): times are exact reals. With `f32`, two accumulated clock values could round to the same number.
- Integer widths: positions are unbounded integers. The `as isize` casts and the overflow of `-position` at `isize::MIN` in `src/devec.rs:24,30` are not modelled.
- Reconstruct.Backtrace: takes `min_time` and `current_time` as parameters. It requires `t >= 1`, because `discrete_starting_time - 1` underflows at 0. It also requires that the position where the trace settles has a colour column, because the source panics at the `unwrap` otherwise.
- Build.BuildInitialState: requires every position with swap data to have a colour column (`SwapsWithin`). The source only needs this for positions where some trace settles. This sufficient condition is the one `main` sets up, since both containers cover `0..HEIGHT`.
- Build.BuildInitialState: the equality with the snapshot definition is stated only when every seed column is non-empty. With an empty seed column, an in-place push can fill an entry that a later trace in the same pass reads.
- Build.FillColumn: requires every position with swap data to have a colour column (`SwapsWithin`). The source only needs this for positions where a trace of this column settles. This is the condition `main` sets up.
- Build.FillColumn: the appended values are stated only when every column already holds entry `t-1` (`ColumnsReach`). Otherwise an in-place push can fill an entry that a later trace of the same pass reads, and the pass then differs from the snapshot definition.
- Generation.GenerateTimeline: the random source is finite here. `None` stands for running out of draws, which the infinite RNG never does. Draws must be positive. An `f32` exponential sample of exactly 0.0 would give two equal timestamps, and the model does not cover that case.
- `Swap::new` is the datatype constructor `Swap`. The `HEIGHT`-long seed vector of `main` is the `seeds` argument of `Pipeline.MainSetup`.

=== FILE: backtrace.dfy ===
/** `ColourState::backtrace_until`: the colour at a position at the end of one
    time slice, found by walking backward through the swaps of that slice. */
module Reconstruct {
  import opened Wrappers
  import opened DeVecs
  import opened Swaps

  /** A colour is a packed 24-bit RGB value in a `u32`; `None` means unknown. */
  type Cell = Option<bv32>
  type ColourState = DeVec<seq<Cell>>

  /** Where the backward walk stops:
      - `Expired`: the loop condition `current_time > min_time` failed;
      - `OffData`: the walk reached a position with no swap data;
      - `Settled`: no swap at `pos` lies inside `(min_time, time)`. */
  datatype Endpoint = Expired | OffData(pos: int, time: real) | Settled(pos: int, time: real)

  function Distance(a: int, b: int): nat {
    if a <= b then b - a else a - b
  }

  /** The position part of the backward trace. Each step follows the last
      swap (in list order) at the current position that lies strictly inside
      `(minTime, currentTime)`, then restarts the scan at the new position. */
  function Walk(swaps: SwapState, minTime: real, currentTime: real, pos: int): (e: Endpoint)
    ensures e.Expired? <==> currentTime <= minTime
    ensures e.OffData? ==> minTime < e.time <= currentTime && swaps.AtPosition(e.pos).None?
    ensures e.Settled? ==> minTime < e.time <= currentTime && swaps.AtPosition(e.pos).Some?
                           && NoCrossing(swaps.AtPosition(e.pos).value, minTime, e.time)
    ensures !e.Expired? ==> Distance(e.pos, pos) <= EventsBefore(swaps, currentTime) - EventsBefore(swaps, e.time)
    decreases EventsBefore(swaps, currentTime)
  {
    if currentTime <= minTime then Expired
    else match swaps.AtPosition(pos)
      case None => OffData(pos, currentTime)
      case Some(events) =>
        match LastCrossing(events, minTime, currentTime)
        case None => Settled(pos, currentTime)
        case Some(k) =>
          var s := events[k];
          CrossingDecreases(swaps, pos, k, currentTime);
          SumBelowMonotone(swaps.Flat(), s.timestamp, currentTime);
          Walk(swaps, minTime, s.timestamp, pos + Step(s.direction))
  }

  /** Entry `t - 1` of a colour column, or unknown when the column is shorter. */
  function ColourBefore(column: seq<Cell>, t: nat): Cell
    requires t >= 1
  {
    if t - 1 < |column| then column[t - 1] else None
  }

  /** Appending to a column that already holds entry `t - 1` does not change
      what a trace for column `t` reads from it; appending to a shorter one can. */
  lemma ColourBeforeStable(column: seq<Cell>, extra: seq<Cell>, t: nat)
    requires t >= 1
    ensures |column| >= t ==> ColourBefore(column + extra, t) == ColourBefore(column, t)
    ensures |column| == t - 1 && extra != [] ==> ColourBefore(column + extra, t) == extra[0]
  {
  }

  /** The `unwrap` of the colour column at the settled position does not panic. */
  predicate SettleSafe(colours: ColourState, swaps: SwapState, minTime: real, currentTime: real, pos: int) {
    var e := Walk(swaps, minTime, currentTime, pos);
    e.Settled? ==> colours.AtPosition(e.pos).Some?
  }

  /** Every position with swap data also has a colour column. */
  predicate SwapsWithin(swaps: SwapState, colours: ColourState) {
    |swaps.positive| <= |colours.positive| && |swaps.negative| <= |colours.negative|
  }

  lemma SwapsWithinSafe(colours: ColourState, swaps: SwapState, minTime: real, currentTime: real, pos: int)
    requires SwapsWithin(swaps, colours)
    ensures SettleSafe(colours, swaps, minTime, currentTime, pos)
  {
  }

  /** The result of `backtrace_until(t, pos)` for the slice `(minTime, currentTime)`. */
  function Backtrace(colours: ColourState, swaps: SwapState, t: nat, minTime: real, currentTime: real, pos: int): (r: Cell)
    requires t >= 1
    requires SettleSafe(colours, swaps, minTime, currentTime, pos)
    // the loop is never entered
    ensures currentTime <= minTime ==> r == None
    // no swap data at the starting position
    ensures minTime < currentTime && swaps.AtPosition(pos).None? ==> r == None
    // persistence: nothing to follow at the start, so the previous column's colour is copied
    ensures minTime < currentTime && swaps.AtPosition(pos).Some? && NoCrossing(swaps.AtPosition(pos).value, minTime, currentTime)
            ==> colours.AtPosition(pos).Some? && r == ColourBefore(colours.AtPosition(pos).value, t)
  {
    match Walk(swaps, minTime, currentTime, pos)
    case Expired => None
    case OffData(_, _) => None
    case Settled(p, _) => ColourBefore(colours.AtPosition(p).value, t)
  }

  /** Crossing rule: following the last swap inside the window moves the trace
      one step and restarts it at that swap's timestamp. */
  lemma BacktraceCrossing(colours: ColourState, swaps: SwapState, t: nat, minTime: real, currentTime: real, pos: int)
    requires t >= 1
    requires SettleSafe(colours, swaps, minTime, currentTime, pos)
    requires minTime < currentTime && swaps.AtPosition(pos).Some?
    requires LastCrossing(swaps.AtPosition(pos).value, minTime, currentTime).Some?
    ensures var s := swaps.AtPosition(pos).value[LastCrossing(swaps.AtPosition(pos).value, minTime, currentTime).value];
            && minTime < s.timestamp < currentTime
            && SettleSafe(colours, swaps, minTime, s.timestamp, pos + Step(s.direction))
            && Backtrace(colours, swaps, t, minTime, currentTime, pos)
               == Backtrace(colours, swaps, t, minTime, s.timestamp, pos + Step(s.direction))
  {
  }

  /** Duality: a known colour is always copied from the previous column at a
      position no further away than the number of swaps below `currentTime`. */
  lemma BacktraceOrigin(colours: ColourState, swaps: SwapState, t: nat, minTime: real, currentTime: real, pos: int)
    requires t >= 1
    requires SettleSafe(colours, swaps, minTime, currentTime, pos)
    requires Backtrace(colours, swaps, t, minTime, currentTime, pos).Some?
    ensures exists p :: Distance(p, pos) <= EventsBefore(swaps, currentTime)
                        && colours.AtPosition(p).Some?
                        && ColourBefore(colours.AtPosition(p).value, t) == Backtrace(colours, swaps, t, minTime, currentTime, pos)
  {
  }

  /** Two colour states with the same range and the same entry `t - 1` in every
      column give the same trace result: `backtrace_until` reads nothing else. */
  lemma BacktraceFrame(a: ColourState, b: ColourState, swaps: SwapState, t: nat, minTime: real, currentTime: real, pos: int)
    requires t >= 1
    requires a.DataRange() == b.DataRange()
    requires forall p :: a.DataRange().Contains(p) ==>
               ColourBefore(a.AtPosition(p).value, t) == ColourBefore(b.AtPosition(p).value, t)
    requires SettleSafe(a, swaps, minTime, currentTime, pos)
    ensures SettleSafe(b, swaps, minTime, currentTime, pos)
    ensures Backtrace(a, swaps, t, minTime, currentTime, pos) == Backtrace(b, swaps, t, minTime, currentTime, pos)
  {
  }

  /** The loop of the source: mutable `current_time`/`current_position`, an
      inner reverse scan, and a restart after every followed swap. */
  method BacktraceUntil(colours: ColourState, t: nat, pos: int, swaps: SwapState, minTime: real, startTime: real) returns (r: Cell)
    requires t >= 1
    requires SettleSafe(colours, swaps, minTime, startTime, pos)
    ensures r == Backtrace(colours, swaps, t, minTime, startTime, pos)
  {
    var currentTime := startTime;
    var currentPosition := pos;
    while currentTime > minTime
      invariant Walk(swaps, minTime, currentTime, currentPosition) == Walk(swaps, minTime, startTime, pos)
      decreases EventsBefore(swaps, currentTime)
    {
      var data := swaps.AtPosition(currentPosition);
      if data.None? {
        return None;
      }
      var events := data.value;
      var crossing := ScanReverse(events, minTime, currentTime);
      if crossing.None? {
        var column := colours.AtPosition(currentPosition).value;
        return if t - 1 < |column| then column[t - 1] else None;
      }
      var s := events[crossing.value];
      CrossingDecreases(swaps, currentPosition, crossing.value, currentTime);
      currentTime := s.timestamp;
      currentPosition := currentPosition + Step(s.direction);
    }
    return None;
  }
}

/** A hand-worked column over a two-position lattice. */
module BacktraceScenarios {
  import opened Wrappers
  import opened DeVecs
  import opened Swaps
  import opened Reconstruct
  import opened Build
  import opened Rgb

  /** Horizon 2.0 and width 2, so column 1 covers the slice (0, 1). Position 0
      has one `Left` swap at 0.6 and position 1 has none; the seed column is
      white, black. Position 0 follows the swap to position -1, which has no
      data, so its colour is unknown; position 1 keeps black. */
  lemma ScenarioOffGrid()
    ensures SliceTime(0, 2.0, 2) == 0.0 && SliceTime(1, 2.0, 2) == 1.0
    ensures var swaps: SwapState := NewWithData([[Swap(Left, 0.6)], []]);
            var colours: ColourState := NewWithData([[Some(White)], [Some(Black)]]);
            && SwapsWithin(swaps, colours)
            && Round(colours, swaps, 1, 2.0, 2) == NewWithData([[Some(White), None], [Some(Black), Some(Black)]])
  {
    var swaps: SwapState := NewWithData([[Swap(Left, 0.6)], []]);
    var colours: ColourState := NewWithData([[Some(White)], [Some(Black)]]);
    assert SliceTime(1, 2.0, 2) == 1.0;
    assert LastCrossing([Swap(Left, 0.6)], 0.0, 1.0) == Some(0);
    assert Walk(swaps, 0.0, 0.6, -1) == OffData(-1, 0.6);
    assert Walk(swaps, 0.0, 1.0, 0) == OffData(-1, 0.6);
    assert Walk(swaps, 0.0, 1.0, 1) == Settled(1, 1.0);
    assert CellAt(colours, swaps, 1, 2.0, 2, 0) == None;
    assert CellAt(colours, swaps, 1, 2.0, 2, 1) == Some(Black);
    var next := Round(colours, swaps, 1, 2.0, 2);
    var expected: ColourState := NewWithData([[Some(White), None], [Some(Black), Some(Black)]]);
    assert next.AtPosition(0) == Some([Some(White)] + [None]);
    assert next.AtPosition(1) == Some([Some(Black)] + [Some(Black)]);
    assert next.DataRange() == expected.DataRange() == Range(0, 2);
    forall p | next.DataRange().Contains(p)
      ensures next.AtPosition(p) == expected.AtPosition(p)
    {
      assert [Some(White)] + [None] == [Some(White), None];
      assert [Some(Black)] + [Some(Black)] == [Some(Black), Some(Black)];
      assert expected.AtPosition(0) == Some([Some(White), None]);
      assert expected.AtPosition(1) == Some([Some(Black), Some(Black)]);
    }
    Extensionality(next, expected);
  }
}

=== FILE: build.dfy ===
/** `ColourState::build_initial_state`: fills time columns 1..width-1 of every
    position, strictly in time order, by appending one trace result per
    position and column. */
module Build {
  import opened Wrappers
  import opened DeVecs
  import opened Swaps
  import opened Reconstruct

  /** The end of discrete time slice `t`: `t * maxTime / width`, as an exact real. */
  function SliceTime(t: nat, maxTime: real, width: nat): (r: real)
    requires width > 0
    // the `width` slices start at 0 and end at the horizon
    ensures t == 0 ==> r == 0.0
    ensures t == width ==> r == maxTime
    ensures maxTime >= 0.0 && t <= width ==> 0.0 <= r <= maxTime
  {
    (t as real) * maxTime / (width as real)
  }

  lemma SliceOrdered(t: nat, maxTime: real, width: nat)
    requires width > 0 && t >= 1 && maxTime > 0.0
    ensures SliceTime(t - 1, maxTime, width) < SliceTime(t, maxTime, width)
  {
  }

  function Column(c: ColourState, p: int): seq<Cell>
    requires c.DataRange().Contains(p)
  {
    c.AtPosition(p).value
  }

  /** Number of columns the build appends: one per `i` in `1..width`. */
  function Appended(width: nat): nat {
    if width == 0 then 0 else width - 1
  }

  ghost predicate SeedsNonEmpty(c: ColourState) {
    forall p :: c.DataRange().Contains(p) ==> |c.AtPosition(p).value| >= 1
  }

  /** The value the build computes for position `p` in column `t`, reading state `c`. */
  function CellAt(c: ColourState, swaps: SwapState, t: nat, maxTime: real, width: nat, p: int): Cell
    requires t >= 1 && width > 0 && SwapsWithin(swaps, c)
  {
    SwapsWithinSafe(c, swaps, SliceTime(t - 1, maxTime, width), SliceTime(t, maxTime, width), p);
    Backtrace(c, swaps, t, SliceTime(t - 1, maxTime, width), SliceTime(t, maxTime, width), p)
  }

  /** Column `t` computed from a snapshot of the state before any of its
      entries is written. */
  function Round(c: ColourState, swaps: SwapState, t: nat, maxTime: real, width: nat): (r: ColourState)
    requires t >= 1 && width > 0 && SwapsWithin(swaps, c)
    ensures r.DataRange() == c.DataRange()
    ensures forall p :: c.DataRange().Contains(p) ==>
              r.AtPosition(p) == Some(c.AtPosition(p).value + [CellAt(c, swaps, t, maxTime, width, p)])
  {
    DeVec(seq(|c.positive|, i requires 0 <= i < |c.positive| => c.positive[i] + [CellAt(c, swaps, t, maxTime, width, i)]),
          seq(|c.negative|, k requires 0 <= k < |c.negative| => c.negative[k] + [CellAt(c, swaps, t, maxTime, width, -k - 1)]))
  }

  /** The state once columns `1..n` (exclusive) are appended, each from a snapshot. */
  function Rounds(c: ColourState, swaps: SwapState, maxTime: real, width: nat, n: nat): (r: ColourState)
    requires width > 0 && SwapsWithin(swaps, c)
    ensures r.DataRange() == c.DataRange()
    ensures forall p :: c.DataRange().Contains(p) ==>
              |Column(r, p)| == |Column(c, p)| + Appended(n) && Column(c, p) <= Column(r, p)
    decreases n
  {
    if n <= 1 then c
    else Round(Rounds(c, swaps, maxTime, width, n - 1), swaps, n - 1, maxTime, width)
  }

  /** Every column already has an entry at index `t - 1`. */
  ghost predicate ColumnsReach(c: ColourState, t: nat) {
    forall p :: c.DataRange().Contains(p) ==> |c.AtPosition(p).value| >= t
  }

  /** One pass of the inner loop (`for j in self.data_range()`): traces every
      position for column `t` and pushes the result in place, position by
      position. When every column already holds entry `t - 1`, the earlier
      pushes of the pass do not change what later traces read, so the pass
      equals the snapshot definition `Round`. */
  method FillColumn(c: ColourState, swaps: SwapState, t: nat, maxTime: real, width: nat) returns (built: ColourState)
    requires t >= 1 && width > 0 && SwapsWithin(swaps, c)
    ensures built.DataRange() == c.DataRange()
    ensures forall p :: c.DataRange().Contains(p) ==>
              |Column(built, p)| == |Column(c, p)| + 1 && Column(c, p) <= Column(built, p)
    ensures ColumnsReach(c, t) ==> built == Round(c, swaps, t, maxTime, width)
  {
    built := c;
    var range := c.DataRange();
    var j := range.start;
    while j < range.end
      invariant range.start <= j <= range.end
      invariant built.DataRange() == range
      invariant forall p :: range.Contains(p) ==>
                  |Column(built, p)| == |Column(c, p)| + (if p < j then 1 else 0)
                  && Column(c, p) <= Column(built, p)
      invariant ColumnsReach(c, t) ==> forall p :: range.Contains(p) && p < j ==>
                  Column(built, p)[|Column(c, p)|] == CellAt(c, swaps, t, maxTime, width, p)
    {
      SwapsWithinSafe(built, swaps, SliceTime(t - 1, maxTime, width), SliceTime(t, maxTime, width), j);
      var value := BacktraceUntil(built, t, j, swaps, SliceTime(t - 1, maxTime, width), SliceTime(t, maxTime, width));
      if ColumnsReach(c, t) {
        forall p | range.Contains(p)
          ensures ColourBefore(Column(built, p), t) == ColourBefore(Column(c, p), t)
        {
          var extra := Column(built, p)[|Column(c, p)|..];
          assert Column(built, p) == Column(c, p) + extra;
          ColourBeforeStable(Column(c, p), extra, t);
        }
        BacktraceFrame(built, c, swaps, t, SliceTime(t - 1, maxTime, width), SliceTime(t, maxTime, width), j);
      }
      var slot := built.AtPositionMut(j).value;
      WriteThroughMut(built, j, built.Read(slot) + [value]);
      built := built.Write(slot, built.Read(slot) + [value]);
      j := j + 1;
    }
    if ColumnsReach(c, t) {
      var next := Round(c, swaps, t, maxTime, width);
      forall p | range.Contains(p)
        ensures built.AtPosition(p) == next.AtPosition(p)
      {
        assert Column(built, p) == Column(c, p) + [CellAt(c, swaps, t, maxTime, width, p)];
      }
      Extensionality(built, next);
    }
  }

  /** The outer loop of the source: columns `1..width`, strictly in time
      order. Entries are only ever appended. When every seed column is
      non-empty, as in the program, the result is the snapshot-per-column
      definition `Rounds`. */
  method BuildInitialState(colours: ColourState, swaps: SwapState, width: nat, maxTime: real) returns (built: ColourState)
    requires SwapsWithin(swaps, colours)
    ensures built.DataRange() == colours.DataRange()
    ensures forall p :: colours.DataRange().Contains(p) ==>
              |Column(built, p)| == |Column(colours, p)| + Appended(width) && Column(colours, p) <= Column(built, p)
    ensures width > 0 && SeedsNonEmpty(colours) ==> built == Rounds(colours, swaps, maxTime, width, width)
  {
    built := colours;
    var i := 1;
    while i < width
      invariant 1 <= i <= if width == 0 then 1 else width
      invariant built.DataRange() == colours.DataRange()
      invariant forall p :: colours.DataRange().Contains(p) ==>
                  |Column(built, p)| == |Column(colours, p)| + (i - 1) && Column(colours, p) <= Column(built, p)
      invariant width > 0 && SeedsNonEmpty(colours) ==> built == Rounds(colours, swaps, maxTime, width, i)
    {
      ghost var before := built;
      built := FillColumn(built, swaps, i, maxTime, width);
      forall p | colours.DataRange().Contains(p)
        ensures Column(colours, p) <= Column(built, p)
      {
        assert Column(colours, p) <= Column(before, p) <= Column(built, p);
      }
      i := i + 1;
    }
  }

  /** Every position that has swap data has no swaps at all. */
  ghost predicate Quiet(swaps: SwapState) {
    forall p :: swaps.AtPosition(p).Some? ==> swaps.AtPosition(p).value == []
  }

  /** At a quiet position whose column repeats `seed`, the next trace copies `seed`. */
  lemma QuietCell(r: ColourState, swaps: SwapState, t: nat, maxTime: real, width: nat, p: int, seed: Cell)
    requires width > 0 && maxTime > 0.0 && t >= 1
    requires swaps.DataRange() == r.DataRange() && Quiet(swaps) && r.DataRange().Contains(p)
    requires Column(r, p) == seq(t, _ => seed)
    ensures CellAt(r, swaps, t, maxTime, width, p) == seed
  {
    SliceOrdered(t, maxTime, width);
    assert swaps.AtPosition(p) == Some([]);
    assert ColourBefore(Column(r, p), t) == seed;
  }

  /** With no swaps anywhere, every column repeats its one-entry seed. */
  lemma {:induction false} QuietKeepsSeed(colours: ColourState, swaps: SwapState, maxTime: real, width: nat, n: nat)
    requires width > 0 && maxTime > 0.0 && n >= 1
    requires swaps.DataRange() == colours.DataRange() && Quiet(swaps)
    requires forall p :: colours.DataRange().Contains(p) ==> |Column(colours, p)| == 1
    ensures forall p :: colours.DataRange().Contains(p) ==>
              Column(Rounds(colours, swaps, maxTime, width, n), p) == seq(n, _ => Column(colours, p)[0])
  {
    if n > 1 {
      QuietKeepsSeed(colours, swaps, maxTime, width, n - 1);
      var r := Rounds(colours, swaps, maxTime, width, n - 1);
      var next := Round(r, swaps, n - 1, maxTime, width);
      assert Rounds(colours, swaps, maxTime, width, n) == next;
      forall p | colours.DataRange().Contains(p)
        ensures Column(next, p) == seq(n, _ => Column(colours, p)[0])
      {
        var seed := Column(colours, p)[0];
        QuietCell(r, swaps, n - 1, maxTime, width, p, seed);
        assert Column(next, p) == Column(r, p) + [seed];
      }
    }
  }
}

=== FILE: devec.dfy ===
/** A container addressed by signed positions, stored as two vectors:
    position `p >= 0` lives at `positive[p]` and position `-k` (k >= 1)
    lives at `negative[k - 1]`. */
module DeVecs {
  import opened Wrappers

  /** The half-open interval `start..end` of positions. */
  datatype Range = Range(start: int, end: int) {
    predicate Contains(p: int) {
      start <= p < end
    }
  }

  /** Which backing vector a mutable reference points into, and where. */
  datatype Slot = PositiveSlot(index: nat) | NegativeSlot(index: nat)

  /** `s` read back to front. */
  function Reverse<T>(s: seq<T>): (r: seq<T>)
    ensures |r| == |s|
    ensures forall i :: 0 <= i < |s| ==> r[i] == s[|s| - 1 - i]
  {
    if s == [] then [] else Reverse(s[1..]) + [s[0]]
  }

  datatype DeVec<T> = DeVec(positive: seq<T>, negative: seq<T>) {

    /** Offset-bias view of the same data: one sequence holding position
        `p` at index `p + |negative|`. Used as the reference meaning of
        the signed addressing. */
    function Flat(): (f: seq<T>)
      ensures |f| == |negative| + |positive|
    {
      Reverse(negative) + positive
    }

    function DataRange(): (r: Range)
      ensures r.start <= 0 <= r.end
      ensures r.end - r.start == |negative| + |positive|
    {
      Range(-|negative|, |positive|)
    }

    function AtPosition(p: int): (r: Option<T>)
      ensures r.Some? <==> DataRange().Contains(p)
    {
      if p < 0 && -p <= |negative| then Some(negative[-p - 1])
      else if p >= 0 && p < |positive| then Some(positive[p])
      else None
    }

    predicate ValidSlot(s: Slot) {
      match s
      case PositiveSlot(i) => i < |positive|
      case NegativeSlot(i) => i < |negative|
    }

    function Read(s: Slot): T
      requires ValidSlot(s)
    {
      match s
      case PositiveSlot(i) => positive[i]
      case NegativeSlot(i) => negative[i]
    }

    /** The mutable-reference accessor: the slot that position `p` names. */
    function AtPositionMut(p: int): (r: Option<Slot>)
      ensures r.Some? <==> AtPosition(p).Some?
      ensures r.Some? ==> ValidSlot(r.value) && Read(r.value) == AtPosition(p).value
    {
      if p < 0 && -p <= |negative| then Some(NegativeSlot(-p - 1))
      else if p >= 0 && p < |positive| then Some(PositiveSlot(p))
      else None
    }

    /** Stores `v` through a mutable reference to slot `s`. */
    function Write(s: Slot, v: T): (r: DeVec<T>)
      requires ValidSlot(s)
      ensures r.DataRange() == DataRange()
      ensures r.ValidSlot(s) && r.Read(s) == v
      ensures forall o :: ValidSlot(o) && o != s ==> r.ValidSlot(o) && r.Read(o) == Read(o)
    {
      match s
      case PositiveSlot(i) => this.(positive := positive[i := v])
      case NegativeSlot(i) => this.(negative := negative[i := v])
    }

    /** `add_data`: moves all of `data` onto the chosen side. The second
        component is the argument vector afterwards. */
    function AddData(data: seq<T>, onPositive: bool): (r: (DeVec<T>, seq<T>))
      ensures r.1 == []
      ensures onPositive ==> r.0.DataRange() == Range(DataRange().start, DataRange().end + |data|)
      ensures !onPositive ==> r.0.DataRange() == Range(DataRange().start - |data|, DataRange().end)
      ensures forall p :: DataRange().Contains(p) ==> r.0.AtPosition(p) == AtPosition(p)
      ensures onPositive ==> forall i :: 0 <= i < |data| ==> r.0.AtPosition(DataRange().end + i) == Some(data[i])
      ensures !onPositive ==> forall i :: 0 <= i < |data| ==> r.0.AtPosition(DataRange().start - 1 - i) == Some(data[i])
    {
      if onPositive then (this.(positive := positive + data), [])
      else (this.(negative := negative + data), [])
    }
  }

  function New<T>(): (d: DeVec<T>)
    ensures d.DataRange() == Range(0, 0)
    ensures forall p :: d.AtPosition(p) == None
  {
    DeVec([], [])
  }

  function NewWithData<T>(data: seq<T>): (d: DeVec<T>)
    ensures d.DataRange() == Range(0, |data|)
    ensures forall i :: 0 <= i < |data| ==> d.AtPosition(i) == Some(data[i])
    ensures d.Flat() == data
  {
    DeVec(data, [])
  }

  /** Signed addressing agrees with the offset-bias view: position `p` is
      index `p + |negative|` of `Flat()`. */
  lemma AtPositionFlat<T>(d: DeVec<T>, p: int)
    ensures d.AtPosition(p).Some? <==> 0 <= p + |d.negative| < |d.Flat()|
    ensures d.AtPosition(p).Some? ==> d.AtPosition(p).value == d.Flat()[p + |d.negative|]
  {
  }

  /** A write through `at_position_mut(p)` changes position `p` and nothing else. */
  lemma WriteThroughMut<T>(d: DeVec<T>, p: int, v: T)
    requires d.AtPositionMut(p).Some?
    ensures d.Write(d.AtPositionMut(p).value, v).DataRange() == d.DataRange()
    ensures forall q :: d.Write(d.AtPositionMut(p).value, v).AtPosition(q)
                        == if q == p then Some(v) else d.AtPosition(q)
  {
  }

  /** Two containers with the same range and the same value at every position are equal. */
  lemma Extensionality<T>(a: DeVec<T>, b: DeVec<T>)
    requires a.DataRange() == b.DataRange()
    requires forall p :: a.DataRange().Contains(p) ==> a.AtPosition(p) == b.AtPosition(p)
    ensures a == b
  {
    assert |a.positive| == |b.positive| && |a.negative| == |b.negative|;
    forall i | 0 <= i < |a.positive|
      ensures a.positive[i] == b.positive[i]
    {
      assert a.AtPosition(i) == b.AtPosition(i);
    }
    forall k | 0 <= k < |a.negative|
      ensures a.negative[k] == b.negative[k]
    {
      assert a.AtPosition(-k - 1) == b.AtPosition(-k - 1);
    }
  }

  /** Extending an empty container by `k` on the negative side and `m` on the
      positive side leaves the range `-k..m`. */
  lemma AddBothSides<T>(neg: seq<T>, pos: seq<T>)
    ensures New<T>().AddData(neg, false).0.AddData(pos, true).0.DataRange() == Range(-|neg|, |pos|)
  {
  }
}

=== FILE: generation.dfy ===
/** The generation phase of `main`: how positions are split among worker
    threads, the per-position timeline loop (with the random draws given as
    input), and the in-order concatenation of the workers' outputs. */
module Generation {
  import opened Wrappers
  import opened DeVecs
  import opened Swaps

  /** Number of positions thread `i` generates: `height / nthreads`, plus one
      for each of the first `height % nthreads` threads. */
  function PartitionSize(height: nat, nthreads: nat, i: nat): (n: nat)
    requires nthreads > 0
    // the shares are roughly equal: `nthreads` copies of any share are within `nthreads` of `height`
    ensures height < (n + 1) * nthreads
    ensures n * nthreads <= height + nthreads
  {
    ShareBounds(height, nthreads, height / nthreads + (if i < height % nthreads then 1 else 0));
    height / nthreads + (if i < height % nthreads then 1 else 0)
  }

  lemma ShareBounds(height: nat, nthreads: nat, n: nat)
    requires nthreads > 0 && height / nthreads <= n <= height / nthreads + 1
    ensures height < (n + 1) * nthreads
    ensures n * nthreads <= height + nthreads
  {
    var q := height / nthreads;
    assert height == q * nthreads + height % nthreads;
    assert (q + 1) * nthreads == q * nthreads + nthreads;
    assert q * nthreads <= n * nthreads <= (q + 1) * nthreads;
    assert (n + 1) * nthreads == n * nthreads + nthreads;
  }

  /** Positions generated by threads `0..k`. */
  function TotalSize(height: nat, nthreads: nat, k: nat): nat
    requires nthreads > 0
  {
    if k == 0 then 0 else TotalSize(height, nthreads, k - 1) + PartitionSize(height, nthreads, k - 1)
  }

  function Min(a: int, b: int): int {
    if a <= b then a else b
  }

  lemma {:induction false} TotalSizeClosedForm(height: nat, nthreads: nat, k: nat)
    requires nthreads > 0
    ensures TotalSize(height, nthreads, k) == k * (height / nthreads) + Min(k, height % nthreads)
  {
    if k > 0 {
      TotalSizeClosedForm(height, nthreads, k - 1);
      assert k * (height / nthreads) == (k - 1) * (height / nthreads) + height / nthreads;
    }
  }

  /** The threads together generate exactly `height` positions. */
  lemma PartitionExact(height: nat, nthreads: nat)
    requires nthreads > 0
    ensures TotalSize(height, nthreads, nthreads) == height
  {
    TotalSizeClosedForm(height, nthreads, nthreads);
    assert height == nthreads * (height / nthreads) + height % nthreads;
  }

  /** Any two threads' shares differ by at most one, and the larger shares go
      to the lower-numbered threads. */
  lemma PartitionBalanced(height: nat, nthreads: nat, i: nat, j: nat)
    requires nthreads > 0 && i < nthreads && j < nthreads
    ensures -1 <= PartitionSize(height, nthreads, i) - PartitionSize(height, nthreads, j) <= 1
    ensures i <= j ==> PartitionSize(height, nthreads, j) <= PartitionSize(height, nthreads, i)
  {
  }

  /** One draw of the random source: an exponential interarrival time and a
      fair coin for the direction. */
  datatype Draw = Draw(interarrival: real, direction: Direction)

  predicate PositiveDraws(draws: seq<Draw>) {
    forall i :: 0 <= i < |draws| ==> draws[i].interarrival > 0.0
  }

  /** The clock after the first `n` draws. */
  function PrefixSum(draws: seq<Draw>, n: nat): real
    requires n <= |draws|
  {
    if n == 0 then 0.0 else PrefixSum(draws, n - 1) + draws[n - 1].interarrival
  }

  lemma {:induction false} PrefixSumIncreasing(draws: seq<Draw>, i: nat, j: nat)
    requires PositiveDraws(draws) && i < j <= |draws|
    ensures 0.0 <= PrefixSum(draws, i) < PrefixSum(draws, j)
  {
    if i < j - 1 {
      PrefixSumIncreasing(draws, i, j - 1);
    } else if i > 0 {
      PrefixSumIncreasing(draws, 0, i);
    }
  }

  predicate StrictlyIncreasing(events: seq<Swap>) {
    forall i, j :: 0 <= i < j < |events| ==> events[i].timestamp < events[j].timestamp
  }

  /** Reference timeline: the `i`-th swap carries the `i`-th direction at the
      clock value after `i + 1` draws. */
  function Timeline(draws: seq<Draw>, n: nat): seq<Swap>
    requires n <= |draws|
  {
    seq(n, i requires 0 <= i < n => Swap(draws[i].direction, PrefixSum(draws, i + 1)))
  }

  /** Timestamps that are prefix sums of positive draws are positive and strictly increasing. */
  lemma TimelineIncreasing(draws: seq<Draw>, n: nat)
    requires PositiveDraws(draws) && n <= |draws|
    ensures StrictlyIncreasing(Timeline(draws, n))
    ensures forall i :: 0 <= i < n ==> Timeline(draws, n)[i].timestamp > 0.0
  {
    var events := Timeline(draws, n);
    forall i, j | 0 <= i < j < n
      ensures events[i].timestamp < events[j].timestamp
    {
      PrefixSumIncreasing(draws, i + 1, j + 1);
    }
    forall i | 0 <= i < n
      ensures events[i].timestamp > 0.0
    {
      PrefixSumIncreasing(draws, 0, i + 1);
    }
  }

  /** The `while time < MAXTIME` loop for one position. The random source is
      the finite sequence `draws`; `None` means it ran out before the clock
      reached `maxTime`. The overshoot swap, the first at or past `maxTime`,
      is kept. */
  method GenerateTimeline(draws: seq<Draw>, maxTime: real) returns (r: Option<seq<Swap>>)
    requires PositiveDraws(draws)
    ensures r.None? <==> PrefixSum(draws, |draws|) < maxTime
    ensures r.Some? ==> |r.value| <= |draws| && r.value == Timeline(draws, |r.value|)
    ensures r.Some? ==> StrictlyIncreasing(r.value)
    ensures r.Some? ==> forall i :: 0 <= i < |r.value| ==> r.value[i].timestamp > 0.0
    ensures r.Some? ==> forall i :: 0 <= i < |r.value| - 1 ==> r.value[i].timestamp < maxTime
    ensures r.Some? && maxTime > 0.0 ==> |r.value| >= 1 && r.value[|r.value| - 1].timestamp >= maxTime
    ensures r.Some? && maxTime <= 0.0 ==> r.value == []
  {
    var events: seq<Swap> := [];
    var time := 0.0;
    var n := 0;
    while time < maxTime
      invariant n <= |draws| && events == Timeline(draws, n)
      invariant time == PrefixSum(draws, n)
      invariant forall i :: 0 <= i < n - 1 ==> events[i].timestamp < maxTime
      invariant n == 0 || maxTime > 0.0
      decreases |draws| - n
    {
      if n == |draws| {
        return None;
      }
      time := time + draws[n].interarrival;
      events := events + [Swap(draws[n].direction, time)];
      n := n + 1;
      assert events == Timeline(draws, n);
    }
    if n < |draws| {
      PrefixSumIncreasing(draws, n, |draws|);
    }
    TimelineIncreasing(draws, n);
    return Some(events);
  }

  function Concat<T>(parts: seq<seq<T>>): seq<T> {
    if parts == [] then [] else Concat(parts[..|parts| - 1]) + parts[|parts| - 1]
  }

  /** Joining the threads in order and appending each output on the
      non-negative side, starting from an empty container. */
  function Assemble<T>(outputs: seq<seq<T>>): (d: DeVec<T>)
    ensures d.DataRange() == Range(0, |Concat(outputs)|)
    ensures forall p :: 0 <= p < |Concat(outputs)| ==> d.AtPosition(p) == Some(Concat(outputs)[p])
  {
    if outputs == [] then New()
    else Assemble(outputs[..|outputs| - 1]).AddData(outputs[|outputs| - 1], true).0
  }

  /** Thread `w`'s `i`-th position lands at position `TotalSize(.., w) + i`, and
      the assembled range is `0..height`, when each thread produced its share. */
  lemma {:induction false} AssembleLayout<T>(outputs: seq<seq<T>>, height: nat, nthreads: nat, w: nat, i: nat)
    requires nthreads > 0 && |outputs| <= nthreads
    requires forall k :: 0 <= k < |outputs| ==> |outputs[k]| == PartitionSize(height, nthreads, k)
    requires w < |outputs| && i < |outputs[w]|
    ensures |Concat(outputs)| == TotalSize(height, nthreads, |outputs|)
    ensures Assemble(outputs).AtPosition(TotalSize(height, nthreads, w) + i) == Some(outputs[w][i])
  {
    var prefix := outputs[..|outputs| - 1];
    ConcatLength(outputs, height, nthreads);
    if w == |outputs| - 1 {
      ConcatLength(prefix, height, nthreads);
      assert Concat(outputs) == Concat(prefix) + outputs[w];
    } else {
      AssembleLayout(prefix, height, nthreads, w, i);
      ConcatLength(prefix, height, nthreads);
      assert Concat(outputs)[..|Concat(prefix)|] == Concat(prefix);
    }
  }

  lemma {:induction false} ConcatLength<T>(outputs: seq<seq<T>>, height: nat, nthreads: nat)
    requires nthreads > 0
    requires forall k :: 0 <= k < |outputs| ==> |outputs[k]| == PartitionSize(height, nthreads, k)
    ensures |Concat(outputs)| == TotalSize(height, nthreads, |outputs|)
  {
    if outputs != [] {
      ConcatLength(outputs[..|outputs| - 1], height, nthreads);
    }
  }

  /** All `nthreads` outputs, each of its thread's share, fill exactly `0..height`. */
  lemma AssembleRange<T>(outputs: seq<seq<T>>, height: nat, nthreads: nat)
    requires nthreads > 0 && |outputs| == nthreads
    requires forall k :: 0 <= k < |outputs| ==> |outputs[k]| == PartitionSize(height, nthreads, k)
    ensures Assemble(outputs).DataRange() == Range(0, height)
  {
    ConcatLength(outputs, height, nthreads);
    PartitionExact(height, nthreads);
  }
}

=== FILE: pipeline.dfy ===
/** How `main` wires the pieces together: the threads' outputs are joined
    into the swap container, the seed colours fill a container of the same
    range, and the build then runs without reaching a failing `unwrap`. */
module Pipeline {
  import opened Wrappers
  import opened DeVecs
  import opened Swaps
  import opened Reconstruct
  import opened Generation

  /** With one output per thread of its share and one seed column per
      position, the swap and colour containers both cover `0..height`, which
      is what the build's `unwrap` calls need; every seed column has one entry. */
  lemma MainSetup(outputs: seq<seq<seq<Swap>>>, seeds: seq<Cell>, height: nat, nthreads: nat)
    requires nthreads > 0 && |outputs| == nthreads && |seeds| == height
    requires forall k :: 0 <= k < |outputs| ==> |outputs[k]| == PartitionSize(height, nthreads, k)
    ensures var swaps := Assemble(outputs);
            var colours: ColourState := NewWithData(seq(height, i requires 0 <= i < height => [seeds[i]]));
            && swaps.DataRange() == colours.DataRange() == Range(0, height)
            && SwapsWithin(swaps, colours)
            && forall p :: 0 <= p < height ==> colours.AtPosition(p) == Some([seeds[p]])
  {
    AssembleRange(outputs, height, nthreads);
  }
}

=== FILE: rgb.dfy ===
/** `from_u8_rgb`: packs three 8-bit channels into the low 24 bits of a `u32`. */
module Rgb {

  function FromU8Rgb(r: bv8, g: bv8, b: bv8): (v: bv32)
    ensures v < 0x100_0000
  {
    (r as bv32 << 16) | (g as bv32 << 8) | b as bv32
  }

  /** The channels of a packed colour: `v >> 16`, `(v >> 8) & 0xFF`, `v & 0xFF`. */
  function Channels(v: bv32): (c: (bv8, bv8, bv8))
    requires v < 0x100_0000
  {
    ((v >> 16) as bv8, ((v >> 8) & 0xFF) as bv8, (v & 0xFF) as bv8)
  }

  /** Unpacking recovers the channels that were packed. */
  lemma UnpackPack(r: bv8, g: bv8, b: bv8)
    ensures Channels(FromU8Rgb(r, g, b)) == (r, g, b)
  {
  }

  /** Every 24-bit value is the packing of its channels. */
  lemma PackUnpack(v: bv32)
    requires v < 0x100_0000
    ensures FromU8Rgb(Channels(v).0, Channels(v).1, Channels(v).2) == v
  {
  }

  const White: bv32 := FromU8Rgb(255, 255, 255)
  const Black: bv32 := FromU8Rgb(0, 0, 0)
}

=== FILE: swaps.dfy ===
/** Swap events and the scan `backtrace_until` performs over one position's
    timeline, plus the measure that makes the backward trace terminate. */
module Swaps {
  import opened Wrappers
  import opened DeVecs

  datatype Direction = Left | Right

  /** A transposition with the left or right neighbour at `timestamp`. */
  datatype Swap = Swap(direction: Direction, timestamp: real)

  type SwapState = DeVec<seq<Swap>>

  /** The position change when a trace follows a swap. */
  function Step(d: Direction): (s: int)
    ensures s == -1 || s == 1
    ensures s == -1 <==> d == Left
  {
    match d
    case Left => -1
    case Right => 1
  }

  /** The time window a swap must fall in to be followed; both ends are excluded. */
  predicate InWindow(s: Swap, minTime: real, currentTime: real) {
    minTime < s.timestamp < currentTime
  }

  predicate NoCrossing(events: seq<Swap>, minTime: real, currentTime: real) {
    forall j :: 0 <= j < |events| ==> !InWindow(events[j], minTime, currentTime)
  }

  /** The swap a reverse scan of `events` meets first inside the window, that is,
      the last one in list order. */
  function LastCrossing(events: seq<Swap>, minTime: real, currentTime: real): (r: Option<nat>)
    ensures r.None? <==> NoCrossing(events, minTime, currentTime)
    ensures r.Some? ==> r.value < |events| && InWindow(events[r.value], minTime, currentTime)
    ensures r.Some? ==> NoCrossing(events[r.value + 1..], minTime, currentTime)
  {
    if events == [] then None
    else if InWindow(events[|events| - 1], minTime, currentTime) then Some(|events| - 1)
    else
      var r := LastCrossing(events[..|events| - 1], minTime, currentTime);
      if r.Some? then
        assert events[r.value + 1..] == events[..|events| - 1][r.value + 1..] + [events[|events| - 1]];
        r
      else r
  }

  /** The reverse scan as the source writes it: a loop from the back of the
      timeline that stops at the first swap inside the window. */
  method ScanReverse(events: seq<Swap>, minTime: real, currentTime: real) returns (r: Option<nat>)
    ensures r == LastCrossing(events, minTime, currentTime)
  {
    var k := |events|;
    while k > 0
      invariant 0 <= k <= |events|
      invariant NoCrossing(events[k..], minTime, currentTime)
    {
      if InWindow(events[k - 1], minTime, currentTime) {
        LastCrossingUnique(events, minTime, currentTime, k - 1);
        return Some(k - 1);
      }
      k := k - 1;
    }
    assert events[0..] == events;
    return None;
  }

  /** Only one index satisfies the description of `LastCrossing`. */
  lemma LastCrossingUnique(events: seq<Swap>, minTime: real, currentTime: real, k: nat)
    requires k < |events| && InWindow(events[k], minTime, currentTime)
    requires NoCrossing(events[k + 1..], minTime, currentTime)
    ensures LastCrossing(events, minTime, currentTime) == Some(k)
  {
  }

  /** Number of swaps in `events` with timestamp strictly below `c`. */
  function CountBelow(events: seq<Swap>, c: real): nat {
    if events == [] then 0
    else (if events[0].timestamp < c then 1 else 0) + CountBelow(events[1..], c)
  }

  /** Number of swaps strictly below `c` over a sequence of timelines. */
  function SumBelow(timelines: seq<seq<Swap>>, c: real): nat {
    if timelines == [] then 0
    else CountBelow(timelines[0], c) + SumBelow(timelines[1..], c)
  }

  /** The termination measure of the backward trace: swaps at every position
      whose timestamp is below `c`. */
  function EventsBefore(swaps: SwapState, c: real): nat {
    SumBelow(swaps.Flat(), c)
  }

  lemma {:induction false} CountBelowMonotone(events: seq<Swap>, a: real, b: real)
    requires a <= b
    ensures CountBelow(events, a) <= CountBelow(events, b)
  {
    if events != [] {
      CountBelowMonotone(events[1..], a, b);
    }
  }

  lemma {:induction false} CountBelowStrict(events: seq<Swap>, k: nat, b: real)
    requires k < |events| && events[k].timestamp < b
    ensures CountBelow(events, events[k].timestamp) < CountBelow(events, b)
  {
    var a := events[k].timestamp;
    if k == 0 {
      CountBelowMonotone(events[1..], a, b);
    } else {
      CountBelowStrict(events[1..], k - 1, b);
    }
  }

  lemma {:induction false} SumBelowMonotone(timelines: seq<seq<Swap>>, a: real, b: real)
    requires a <= b
    ensures SumBelow(timelines, a) <= SumBelow(timelines, b)
  {
    if timelines != [] {
      CountBelowMonotone(timelines[0], a, b);
      SumBelowMonotone(timelines[1..], a, b);
    }
  }

  lemma {:induction false} SumBelowStrict(timelines: seq<seq<Swap>>, i: nat, k: nat, b: real)
    requires i < |timelines| && k < |timelines[i]| && timelines[i][k].timestamp < b
    ensures SumBelow(timelines, timelines[i][k].timestamp) < SumBelow(timelines, b)
  {
    var a := timelines[i][k].timestamp;
    if i == 0 {
      CountBelowStrict(timelines[0], k, b);
      SumBelowMonotone(timelines[1..], a, b);
    } else {
      CountBelowMonotone(timelines[0], a, b);
      SumBelowStrict(timelines[1..], i - 1, k, b);
    }
  }

  /** Following a swap at any position strictly lowers the measure. */
  lemma CrossingDecreases(swaps: SwapState, p: int, k: nat, c: real)
    requires swaps.AtPosition(p).Some?
    requires k < |swaps.AtPosition(p).value| && swaps.AtPosition(p).value[k].timestamp < c
    ensures EventsBefore(swaps, swaps.AtPosition(p).value[k].timestamp) < EventsBefore(swaps, c)
  {
    AtPositionFlat(swaps, p);
    SumBelowStrict(swaps.Flat(), p + |swaps.negative|, k, c);
  }
}

=== FILE: wrappers.dfy ===
/** The optional-value datatype used for Rust's `Option<T>` throughout the model. */
module Wrappers {

  datatype Option<+T> = None | Some(value: T)
}
